=== FILE: README.md ===
# Input system: safe callback dispatch and button press semantics

This project models two pieces of the input system's core in Dafny and proves
their properties.

**Safe callback fan-out** (`delegate_helpers.dfy`, module `DelegateHelpers`).
The delegate helpers call every listener of a list. They go in reverse
registration order, so the last-registered listener runs first and index 0 runs
last. An exception thrown by one listener is caught and logged, and the
remaining listeners still run. There are variants for listeners of zero, one and
two arguments. A short-circuiting variant stops at the first listener that
returns true. It reports true for an empty list and false when no listener
returned true.

The model works like this:

- A listener is a value of a generic type `L`.
- What a call does is given by a total function `react: (L, A) -> Reaction<L>`.
  A reaction has an `Outcome` (`Ok`, `Throws` or `Returns(b)`) and an `Edit` the
  listener makes to the live list while it runs.
- The argument type `A` is `()`, `T` or `(T1, T2)` for the three overloads, so
  one loop (`InvokeSafe`) serves all three.
- Each dispatch is described by a `Pass`: the visits made, in order, the log
  entries written, and the live list left behind. `callbacks` is a `ref`
  parameter in the code, which is why the pass returns the live list.
- The loop reads the list's length once, from a clone taken at entry. It then
  calls the listener at each index of the LIVE list, going down from that length
  minus one. So the clone fixes only how many times the loop runs, not which
  listeners it calls.
- An index that the live list no longer holds counts as a caught failure and is
  logged (`Missing`).
- The methods are loops. Each one is proved equal to a recursive reference
  definition (`Scan`, `ScanAny`), and the properties are lemmas about those
  definitions.

The comment at the head of the helpers says they protect "against the callback
getting removed while being called". The code clones the list, but the clone
(`copy`) is used only for its length, in the loop's initialiser; every call
reads the live list (`callbacks[i]`). The model follows the code, and the
lemmas show how far the protection reaches:

- `RemovingVisitedListenersIsSafe`: an edit that leaves the entries below the
  current index alone does not disturb the pass, and every listener present at
  entry runs exactly once. The edit only has to do so on live lists whose lower
  entries are still the ones present at entry. A listener removing itself (by
  position, or by value when no equal entry sits below it), removing an entry
  that has already run, or appending is such an edit.
- `SelfUnsubscribeCallsEachOnce`: the usual unsubscription, where each of a list
  of distinct listeners removes the first entry equal to itself, calls every
  listener once, last to first. With a duplicate below it, removal by value
  takes the lower copy instead, and the pass is disturbed like any removal
  below the current index. `SelfUnsubscribeEmptiesList` and
  `SelfRemovalCallsEachOnce` are the concrete cases of three listeners each
  removing itself by value and by position; the list ends empty.
- `AppendedListenersNeverReached`: listeners appended during the pass are not
  called by it.
- `LaterVisitsReadEditedList`: in general, once the first listener to run has
  edited the list, every later visit calls whatever the EDITED list holds at its
  index, or is a caught failure where the edited list is too short. Nothing is
  read from the list as it was at entry.
- `LiveIndexingCanRepeatListener`: removing an entry BELOW the current index
  shifts listeners that have not run yet down by one place. On `[0, 1, 2]`, if
  listener 2 removes the first entry, listener 2 runs three times and listeners
  0 and 1 never run.

**Button press threshold** (`button_control.dfy`, module `Buttons`). A button is
an axis whose value is pressed when it reaches the press point. A press point
that is zero or negative falls back to the process-wide default. A press edge
means the button is pressed now and was not pressed in the previous frame. A
release edge is the reverse. A new button stores its state as a single bit, and in
that format it reads only 0 or 1. The
axis value, the previous value and the default press point are parameters, and
values are `real`.

## Model

| member | source | states |
|---|---|---|
| DelegateHelpers.InvokeSafe | Packages/com.unity.inputsystem/InputSystem/Utilities/DelegateHelpers.cs:11-81 | The shared loop equals the reference pass. It makes one visit per entry of the list at entry, with indices going down from the last to 0. Every call gets the dispatch argument. The log has exactly one entry per faulted call |
| DelegateHelpers.InvokeCallbacksSafe | Packages/com.unity.inputsystem/InputSystem/Utilities/DelegateHelpers.cs:11-33 | Zero-argument dispatch: an empty list calls nothing and logs nothing. Otherwise there is one visit per entry at entry, with indices going down from the last to 0. One log entry per faulted call |
| DelegateHelpers.InvokeCallbacksSafeWithArgument | Packages/com.unity.inputsystem/InputSystem/Utilities/DelegateHelpers.cs:35-57 | One-argument dispatch: one visit per entry at entry, indices going down from the last to 0. Every call receives the argument. One log entry per faulted call |
| DelegateHelpers.InvokeCallbacksSafeWithArguments | Packages/com.unity.inputsystem/InputSystem/Utilities/DelegateHelpers.cs:59-81 | Two-argument dispatch: one visit per entry at entry, indices going down from the last to 0. Every call receives both arguments. One log entry per faulted call |
| DelegateHelpers.InvokeCallbacksSafeAnyCallbackReturnsTrue | Packages/com.unity.inputsystem/InputSystem/Utilities/DelegateHelpers.cs:83-108 | An empty list gives true with no calls and no log. On a non-empty list the result is true exactly when some call returned true, and then the last visit is the first call that returned true: no earlier visit returned true and lower indices are not called. A false result means every index was visited. Visits go down from the last index. One log entry per faulted call |
| DelegateHelpers.Call | Packages/com.unity.inputsystem/InputSystem/Utilities/DelegateHelpers.cs:21-94 | The live-index call at lines 21, 45, 69 and 94 reads the LIVE list: the listener found at the index now is the one called, with the dispatch argument, and the visit records that listener's own outcome. An index the live list no longer holds is a failure that leaves the list as it is. A listener's edit is applied to the live list, which becomes the list the next call reads; a listener that makes no edit leaves the list as it is |
| DelegateHelpers.DispatchOrder | Packages/com.unity.inputsystem/InputSystem/Utilities/DelegateHelpers.cs:16-17 | The pass makes exactly as many visits as the list had entries at entry, in strictly descending index order. This holds whatever the listeners do to the list. Every call receives the dispatch argument |
| DelegateHelpers.DispatchLogsEachFault | Packages/com.unity.inputsystem/InputSystem/Utilities/DelegateHelpers.cs:19-30 | A faulted call adds one log entry and dispatch carries on with the next lower index. The log is exactly the faulted visits, in visit order |
| DelegateHelpers.FaultLogEmpty | Packages/com.unity.inputsystem/InputSystem/Utilities/DelegateHelpers.cs:23-29 | A log is empty exactly when no visit faulted |
| DelegateHelpers.AppendedListenersNeverReached | Packages/com.unity.inputsystem/InputSystem/Utilities/DelegateHelpers.cs:16-21 | When listeners only append, the pass calls exactly the listeners present at entry, each once, last to first. Appended listeners are not reached. The entry list stays a prefix of the live list |
| DelegateHelpers.UnmutatedDispatchInvokesEachOnce | Packages/com.unity.inputsystem/InputSystem/Utilities/DelegateHelpers.cs:41-45 | On an unmutated list every listener is called exactly once with the same argument, and the list is unchanged. The log is empty exactly when no listener throws |
| DelegateHelpers.RemovingVisitedListenersIsSafe | Packages/com.unity.inputsystem/InputSystem/Utilities/DelegateHelpers.cs:8-21 | The protection against removal during a call: if each listener's edit leaves the entries below its own index unchanged whenever they are still the entry ones (removing itself or an entry already visited, or appending), every listener present at entry is called exactly once, last to first, with the dispatch argument |
| DelegateHelpers.SelfRemovalCallsEachOnce | Packages/com.unity.inputsystem/InputSystem/Utilities/DelegateHelpers.cs:8-21 | On `[0, 1, 2]` with each listener removing itself, listeners 2, 1 and 0 each run once, in that order, and the list ends empty |
| DelegateHelpers.SelfUnsubscribeCallsEachOnce | Packages/com.unity.inputsystem/InputSystem/Utilities/DelegateHelpers.cs:8-21 | When distinct listeners each unsubscribe themselves by value while they run, whatever their outcome, every listener present at entry is still called exactly once, last to first |
| DelegateHelpers.SelfUnsubscribeEmptiesList | Packages/com.unity.inputsystem/InputSystem/Utilities/DelegateHelpers.cs:8-21 | On `[0, 1, 2]` with each listener unsubscribing itself by value, listeners 2, 1 and 0 each run once, in that order, and the list ends empty |
| DelegateHelpers.ScanOverFixed | Packages/com.unity.inputsystem/InputSystem/Utilities/DelegateHelpers.cs:17-21 | Over a list that no longer changes, visit `k` of a scan from index `i` calls the listener at index `i - k` of that list, or is a caught failure when the list is too short. The list stays as it is |
| DelegateHelpers.LaterVisitsReadEditedList | Packages/com.unity.inputsystem/InputSystem/Utilities/DelegateHelpers.cs:16-21 | The clone fixes only the number of iterations. The first visit calls the last-registered listener. If its edit produces a list whose listeners make no further edits, every later visit calls the listener that the EDITED list holds at that index, or is a caught failure where the edited list is too short, and the pass ends with the edited list |
| DelegateHelpers.LiveIndexingCanRepeatListener | Packages/com.unity.inputsystem/InputSystem/Utilities/DelegateHelpers.cs:16-21 | Indexing the live list means the clone does not freeze the set of listeners. If the listener at index 2 of `[0, 1, 2]` removes the first entry, listener 2 runs three times and listeners 0 and 1 never run |
| DelegateHelpers.ClearedListIsLoggedPerIndex | Packages/com.unity.inputsystem/InputSystem/Utilities/DelegateHelpers.cs:17-30 | If the first listener clears the list, the loop still runs down to index 0. Each index now out of range is logged as a caught failure |
| DelegateHelpers.AnyStopsAtFirstTrue | Packages/com.unity.inputsystem/InputSystem/Utilities/DelegateHelpers.cs:90-107 | Non-empty list: visits go down from the last index, and only the final visit may return true. The result is true exactly when that visit returned true, so lower indices are not called. A false result means every index was visited and no call returned true. Throwing calls count as not true |
| DelegateHelpers.AnyEmptyReturnsTrue | Packages/com.unity.inputsystem/InputSystem/Utilities/DelegateHelpers.cs:86-87 | An empty list gives true with no calls, no log and the list unchanged |
| DelegateHelpers.AnyLogsEachFault | Packages/com.unity.inputsystem/InputSystem/Utilities/DelegateHelpers.cs:97-104 | In the short-circuiting pass, too, the log is exactly the faulted visits, in order |
| DelegateHelpers.AnyIsPrefixOfDispatch | Packages/com.unity.inputsystem/InputSystem/Utilities/DelegateHelpers.cs:89-107 | The short-circuiting pass makes the same calls and writes the same log as the plain pass, up to where it stops. When it returns false, it is identical to the plain pass |
| Buttons.NewButton | Assets/InputSystem/Controls/ButtonControl.cs:12-17 | A new button has bit format, and its press point always falls back to the default |
| Buttons.EffectivePressPoint | Assets/InputSystem/Controls/ButtonControl.cs:21-23 | The threshold is one of the two press points, and it is positive exactly when the button's own press point or the default is positive |
| Buttons.IsValueConsideredPressed | Assets/InputSystem/Controls/ButtonControl.cs:19-25 | A value is pressed exactly when it reaches the button's own press point if that is positive, and the default press point otherwise |
| Buttons.IsPressed | Assets/InputSystem/Controls/ButtonControl.cs:27 | If the current value is pressed, so is every larger value; if it is not pressed, no smaller value is |
| Buttons.WasPressedThisFrame | Assets/InputSystem/Controls/ButtonControl.cs:28 | A press edge holds exactly when the previous value is below the threshold and the current value is at or above it, so the value rose |
| Buttons.WasReleasedThisFrame | Assets/InputSystem/Controls/ButtonControl.cs:29 | A release edge holds exactly when the previous value is at or above the threshold and the current value is below it, so the value fell |
| Buttons.PressPointFallback | Assets/InputSystem/Controls/ButtonControl.cs:21-23 | The button's own press point is used exactly when it is positive. Zero and negative press points fall back to the default. A positive default always gives a positive threshold |
| Buttons.PressPointOverridesDefault | Assets/InputSystem/Controls/ButtonControl.cs:21-24 | A positive own press point makes the default irrelevant: the button is pressed on the same values whatever the default. Without one, any two buttons with zero or negative press points are pressed on the same values for the same default |
| Buttons.PressPointIsLeastPressedValue | Assets/InputSystem/Controls/ButtonControl.cs:24 | The effective press point is itself pressed, and every smaller value is not |
| Buttons.PressedMonotone | Assets/InputSystem/Controls/ButtonControl.cs:24 | If a value is pressed, every larger value is pressed too |
| Buttons.EdgesExclusive | Assets/InputSystem/Controls/ButtonControl.cs:27-29 | Press and release edges never occur together. Neither occurs when the press state is unchanged. A press edge implies pressed, and a release edge implies not pressed |
| Buttons.BitButtonPressedIffSet | Assets/InputSystem/Controls/ButtonControl.cs:3-24 | A bit-format button reads only 0 or 1. With an effective press point in (0, 1] it is pressed exactly when it reads 1 and released exactly when it reads 0 |
| Buttons.NewButtonPressedIffSet | Assets/InputSystem/Controls/ButtonControl.cs:14-27 | A new button with a default press point in (0, 1] is pressed exactly when its bit is set |
| Buttons.EdgesAlternate | Assets/InputSystem/Controls/ButtonControl.cs:28-29 | Over consecutive frames, the press edges minus the release edges equal the change in press state from the first frame to the last. So the two counts never differ by more than one |

## Left out

- Profiler samples (`BeginSample`/`EndSample`) are engine side effects. This includes the `EndSample` that the early `return true` skips.
- Log message text is not modelled. Each caught failure becomes one `LogEntry`, which stands for the `LogError` line and the `LogException` call together. The entry records the visit index and whether a context object was given. The exception type name, the callback name and the context's text are not kept.
- `callbackName` is used only for profiling and log text, so it is not a parameter.
- The `InlinedArray` container is not part of this model. Its clone is modelled only through the length it reports. An index past the end of the live list is assumed to fail in a way the same `catch` handles (`Missing`). Listener edits to the list are arbitrary functions `seq<L> -> seq<L>`, so no particular `InlinedArray` operation is assumed. `RemoveFirst` (removing the first equal entry) stands for unsubscription by value; it is an illustration, not a model of `InlinedArray`'s own removal.
- Only the outcome of a listener and its edit to the live list are modelled. Any other side effect a listener has is not.
- A listener's reaction is a fixed function of the listener and the argument. So a listener called twice in one pass reacts the same way both times, and no outcome or edit can depend on the live list, on earlier calls or on other state.
- `ValueInFormat` states that a bit-format button reads only 0 or 1, as the class comment says. The decoding that makes this so is not part of this model.
- In the short-circuiting variant, listeners always return a boolean. An `Ok` outcome there counts as not true.
- Float arithmetic: values and press points are `real`. NaN and signed zero are not modelled. With NaN, every comparison in the code is false.
- `AxisControl` decoding of `value` and `previous`, the state block layout, and `InputConfiguration` are not part of this model. The two values and the default press point are inputs.
- The iOS step counter is not modelled. Its commands forward to native functions, and its data callback runs on a native thread.
- The on-screen control tests are not modelled. The device sharing and removal they check lives in component code that is not part of this model.
- The tracked-device control declarations and the action-change enumeration are not modelled, because they have no behaviour.

=== FILE: button_control.dfy ===
/**
  A model of a button control: an axis whose value is turned into pressed or not
  pressed by comparing it with a press point. A press point that is not positive
  falls back to the process-wide default press point, which is a parameter here.
  The current and previous values of the underlying axis are inputs; values are
  `real` rather than IEEE single-precision floats.
 */
module Buttons {

  /** The storage format of a control's state. A new button is stored as a single
      bit; any other format code stands for whatever a device layout declares. */
  datatype StateFormat = Bit | OtherFormat(code: int)

  datatype ButtonControl = ButtonControl(pressPoint: real, format: StateFormat)

  /** A freshly constructed button: its press point field holds the zero a float
      field starts with, and its state is a single bit. */
  function NewButton(): (b: ButtonControl)
    ensures b.format == Bit
    ensures forall defaultPressPoint :: EffectivePressPoint(b, defaultPressPoint) == defaultPressPoint
  {
    ButtonControl(0.0, Bit)
  }

  /** The value a single-bit state decodes to. */
  function BitValue(bitSet: bool): real {
    if bitSet then 1.0 else 0.0
  }

  /** The values a state of the given format can decode to: a single bit reads as 0
      or 1; other formats are not constrained here. */
  predicate ValueInFormat(format: StateFormat, value: real) {
    format.Bit? ==> value == 0.0 || value == 1.0
  }

  /** The threshold actually compared against: one of the two press points, and a
      positive one whenever either of them is positive. */
  function EffectivePressPoint(b: ButtonControl, defaultPressPoint: real): (p: real)
    ensures p == b.pressPoint || p == defaultPressPoint
    ensures p > 0.0 <==> b.pressPoint > 0.0 || defaultPressPoint > 0.0
  {
    if b.pressPoint <= 0.0 then defaultPressPoint else b.pressPoint
  }

  /** A value counts as pressed when it reaches the button's own press point if that
      is positive, and the default press point otherwise. */
  function IsValueConsideredPressed(b: ButtonControl, defaultPressPoint: real, value: real): (r: bool)
    ensures r <==> (b.pressPoint > 0.0 && value >= b.pressPoint) || (b.pressPoint <= 0.0 && value >= defaultPressPoint)
  {
    value >= EffectivePressPoint(b, defaultPressPoint)
  }

  /** Whether the button's current value counts as pressed; the pressed values are
      closed upwards and the released ones downwards. */
  function IsPressed(b: ButtonControl, defaultPressPoint: real, value: real): (r: bool)
    ensures r ==> forall larger :: larger >= value ==> IsValueConsideredPressed(b, defaultPressPoint, larger)
    ensures !r ==> forall smaller :: smaller <= value ==> !IsValueConsideredPressed(b, defaultPressPoint, smaller)
  {
    IsValueConsideredPressed(b, defaultPressPoint, value)
  }

  /** A press edge is exactly a rise of the value across the threshold: below it in
      the previous frame, at or above it now. */
  function WasPressedThisFrame(b: ButtonControl, defaultPressPoint: real, value: real, previous: real): (r: bool)
    ensures r <==> previous < EffectivePressPoint(b, defaultPressPoint) <= value
    ensures r ==> previous < value
  {
    IsValueConsideredPressed(b, defaultPressPoint, value) && !IsValueConsideredPressed(b, defaultPressPoint, previous)
  }

  /** A release edge is exactly a fall of the value across the threshold: at or above
      it in the previous frame, below it now. */
  function WasReleasedThisFrame(b: ButtonControl, defaultPressPoint: real, value: real, previous: real): (r: bool)
    ensures r <==> value < EffectivePressPoint(b, defaultPressPoint) <= previous
    ensures r ==> value < previous
  {
    !IsValueConsideredPressed(b, defaultPressPoint, value) && IsValueConsideredPressed(b, defaultPressPoint, previous)
  }

  /** The fallback rule: the button's own press point is used exactly when it is
      positive; zero and negative press points both fall back to the default. A
      positive default therefore always yields a positive threshold. */
  lemma PressPointFallback(b: ButtonControl, defaultPressPoint: real)
    ensures b.pressPoint > 0.0 ==> EffectivePressPoint(b, defaultPressPoint) == b.pressPoint
    ensures b.pressPoint <= 0.0 ==> EffectivePressPoint(b, defaultPressPoint) == defaultPressPoint
    ensures defaultPressPoint > 0.0 ==> EffectivePressPoint(b, defaultPressPoint) > 0.0
  {
  }

  /** Which press point decides: a positive own press point makes the default
      irrelevant, and without one all buttons (whatever zero or negative press point
      they hold) agree with each other on every value. */
  lemma PressPointOverridesDefault(b: ButtonControl, other: ButtonControl, defaultPressPoint: real, otherDefault: real, value: real)
    ensures b.pressPoint > 0.0 ==>
      (IsPressed(b, defaultPressPoint, value) <==> IsPressed(b, otherDefault, value))
    ensures b.pressPoint <= 0.0 && other.pressPoint <= 0.0 ==>
      (IsPressed(b, defaultPressPoint, value) <==> IsPressed(other, defaultPressPoint, value))
  {
  }

  /** The effective press point is the least pressed value: it is pressed itself and
      every value below it is not. */
  lemma PressPointIsLeastPressedValue(b: ButtonControl, defaultPressPoint: real, value: real)
    ensures IsPressed(b, defaultPressPoint, EffectivePressPoint(b, defaultPressPoint))
    ensures value < EffectivePressPoint(b, defaultPressPoint) ==> !IsPressed(b, defaultPressPoint, value)
  {
  }

  /** Pressed-ness is monotone in the value. */
  lemma PressedMonotone(b: ButtonControl, defaultPressPoint: real, value: real, larger: real)
    requires value <= larger
    ensures IsPressed(b, defaultPressPoint, value) ==> IsPressed(b, defaultPressPoint, larger)
  {
  }

  /** The two edges exclude each other; neither occurs when the press state did not
      change; a press edge leaves the button pressed and a release edge leaves it
      released. */
  lemma EdgesExclusive(b: ButtonControl, defaultPressPoint: real, value: real, previous: real)
    ensures !(WasPressedThisFrame(b, defaultPressPoint, value, previous) && WasReleasedThisFrame(b, defaultPressPoint, value, previous))
    ensures IsPressed(b, defaultPressPoint, value) == IsPressed(b, defaultPressPoint, previous) ==>
      !WasPressedThisFrame(b, defaultPressPoint, value, previous) && !WasReleasedThisFrame(b, defaultPressPoint, value, previous)
    ensures WasPressedThisFrame(b, defaultPressPoint, value, previous) ==> IsPressed(b, defaultPressPoint, value)
    ensures WasReleasedThisFrame(b, defaultPressPoint, value, previous) ==> !IsPressed(b, defaultPressPoint, value)
  {
  }

  /** A bit-format button reads 0 or 1, and with an effective press point in (0, 1] it
      is pressed exactly when it reads 1, that is, when its bit is set. */
  lemma BitButtonPressedIffSet(b: ButtonControl, defaultPressPoint: real, value: real)
    requires b.format == Bit && ValueInFormat(b.format, value)
    requires 0.0 < EffectivePressPoint(b, defaultPressPoint) <= 1.0
    ensures IsPressed(b, defaultPressPoint, value) <==> value == BitValue(true)
    ensures !IsPressed(b, defaultPressPoint, value) <==> value == BitValue(false)
  {
  }

  /** A new button with a default press point in (0, 1] is pressed exactly when its bit
      is set. */
  lemma NewButtonPressedIffSet(defaultPressPoint: real, bitSet: bool)
    requires 0.0 < defaultPressPoint <= 1.0
    ensures IsPressed(NewButton(), defaultPressPoint, BitValue(bitSet)) <==> bitSet
  {
    BitButtonPressedIffSet(NewButton(), defaultPressPoint, BitValue(bitSet));
  }

  // ---------------------------------------------------------------------------
  // Edges over a run of frames, each frame's previous value being the value of
  // the frame before it
  // ---------------------------------------------------------------------------

  function PressEdges(b: ButtonControl, defaultPressPoint: real, frames: seq<real>): (n: nat)
    ensures n < |frames| || n == 0
  {
    if |frames| < 2 then 0
    else
      var last := |frames| - 1;
      PressEdges(b, defaultPressPoint, frames[..last])
        + (if WasPressedThisFrame(b, defaultPressPoint, frames[last], frames[last - 1]) then 1 else 0)
  }

  function ReleaseEdges(b: ButtonControl, defaultPressPoint: real, frames: seq<real>): (n: nat)
    ensures n < |frames| || n == 0
  {
    if |frames| < 2 then 0
    else
      var last := |frames| - 1;
      ReleaseEdges(b, defaultPressPoint, frames[..last])
        + (if WasReleasedThisFrame(b, defaultPressPoint, frames[last], frames[last - 1]) then 1 else 0)
  }

  function PressedBit(b: ButtonControl, defaultPressPoint: real, value: real): int {
    if IsPressed(b, defaultPressPoint, value) then 1 else 0
  }

  /** Press and release edges alternate: over any run of frames the press edges
      outnumber the release edges by the change in press state from the first frame
      to the last, so the counts never differ by more than one. */
  lemma {:induction false} EdgesAlternate(b: ButtonControl, defaultPressPoint: real, frames: seq<real>)
    requires |frames| > 0
    ensures PressEdges(b, defaultPressPoint, frames) - ReleaseEdges(b, defaultPressPoint, frames)
         == PressedBit(b, defaultPressPoint, frames[|frames| - 1]) - PressedBit(b, defaultPressPoint, frames[0])
    ensures -1 <= PressEdges(b, defaultPressPoint, frames) - ReleaseEdges(b, defaultPressPoint, frames) <= 1
    decreases |frames|
  {
    if |frames| >= 2 {
      var last := |frames| - 1;
      EdgesAlternate(b, defaultPressPoint, frames[..last]);
      assert frames[..last][last - 1] == frames[last - 1];
      assert frames[..last][0] == frames[0];
    }
  }
}

=== FILE: delegate_helpers.dfy ===
/**
  A model of the safe callback fan-out of the input system's delegate helpers.

  A listener list is a `seq<L>`; what a listener does when it is called with the
  dispatch argument is given by a total function `react: (L, A) -> Reaction<L>`:
  how the call ends (normally, with a boolean, or by throwing) and how it edits the
  live listener list while it runs. The argument type `A` is `()` for callbacks
  without arguments, `T` for one argument and `(T1, T2)` for two.

  The dispatch loop reads the length of a clone of the list once, then scans the
  indices from that length minus one down to zero, each time calling the listener
  at that index of the LIVE list. Every exception is caught and logged, and an
  index that the live list no longer holds is treated as a caught exception too.
 */
module DelegateHelpers {

  /** How one listener call ends. `Ok` is a void listener returning normally,
      `Returns(b)` a predicate listener returning `b`, `Throws` any exception. */
  datatype Outcome = Ok | Throws | Returns(value: bool) {
    predicate IsTrue() {
      Returns? && value
    }
  }

  /** The change a listener makes to the live listener list while it runs. */
  datatype Edit<!L> = Keep | Change(apply: seq<L> -> seq<L>)

  datatype Reaction<!L> = Reaction(outcome: Outcome, edit: Edit<L>)

  /** What happened at one index of the scan. `Missing` is an index past the end of
      the live list: the indexer fails and the failure is caught like any exception. */
  datatype Visit<L, A> =
    | Invoked(index: nat, listener: L, arg: A, outcome: Outcome)
    | Missing(index: nat)
  {
    predicate Faulted() {
      Missing? || outcome.Throws?
    }

    predicate ReturnedTrue() {
      Invoked? && outcome.IsTrue()
    }
  }

  /** One caught exception: the error line (which names the owning context when
      there is one) together with the logged exception itself. */
  datatype LogEntry = LogEntry(index: nat, withContext: bool)

  /** The observable effect of one dispatch: the calls made, in order, the log
      written, and the live listener list left behind. */
  datatype Pass<L, A> = Pass(visits: seq<Visit<L, A>>, log: seq<LogEntry>, live: seq<L>)

  function ApplyEdit<L>(edit: Edit<L>, live: seq<L>): seq<L> {
    match edit
    case Keep => live
    case Change(f) => f(live)
  }

  /** The log written for one visit. */
  function Report<L, A>(v: Visit<L, A>, withContext: bool): seq<LogEntry> {
    if v.Faulted() then [LogEntry(v.index, withContext)] else []
  }

  /** The log that a sequence of visits ought to produce: one entry per faulted
      visit, in visit order, and nothing for the others. */
  function FaultLog<L, A>(visits: seq<Visit<L, A>>, withContext: bool): (log: seq<LogEntry>)
    ensures |log| <= |visits|
  {
    if visits == [] then [] else Report(visits[0], withContext) + FaultLog(visits[1..], withContext)
  }

  /** Calling the listener at index `i` of the LIVE list: the listener found there
      now is the one called, with the dispatch argument; an index the live list no
      longer holds is a caught failure that leaves the list as it is. */
  function Call<L, A>(react: (L, A) -> Reaction<L>, arg: A, live: seq<L>, i: nat): (r: (Visit<L, A>, seq<L>))
    ensures r.0.index == i
    ensures r.0.Missing? <==> i >= |live|
    ensures r.0.Missing? ==> r.1 == live
    ensures r.0.Invoked? ==> r.0.listener == live[i] && r.0.arg == arg
    ensures r.0.Invoked? ==> r.0.outcome == react(live[i], arg).outcome
    ensures r.0.Invoked? && react(live[i], arg).edit.Keep? ==> r.1 == live
    ensures r.0.Invoked? && react(live[i], arg).edit.Change? ==> r.1 == react(live[i], arg).edit.apply(live)
  {
    if i < |live| then
      var r := react(live[i], arg);
      (Invoked(i, live[i], arg, r.outcome), ApplyEdit(r.edit, live))
    else
      (Missing(i), live)
  }

  /** The pass `p` preceded by visit `v` and whatever `v` logged. */
  function Prepend<L, A>(v: Visit<L, A>, withContext: bool, p: Pass<L, A>): Pass<L, A> {
    Pass([v] + p.visits, Report(v, withContext) + p.log, p.live)
  }

  /** Reference semantics of the plain dispatch loop: indices `i`, `i - 1`, ..., `0`. */
  function Scan<L, A>(react: (L, A) -> Reaction<L>, arg: A, withContext: bool, live: seq<L>, i: int): Pass<L, A>
    requires -1 <= i
    decreases i + 1
  {
    if i < 0 then Pass([], [], live)
    else
      var (v, live') := Call(react, arg, live, i);
      Prepend(v, withContext, Scan(react, arg, withContext, live', i - 1))
  }

  /** Reference semantics of the short-circuiting loop: as `Scan`, but the first call
      that returns true ends the pass with result true; running off index 0 gives false. */
  function ScanAny<L, A>(react: (L, A) -> Reaction<L>, arg: A, withContext: bool, live: seq<L>, i: int): (Pass<L, A>, bool)
    requires -1 <= i
    decreases i + 1
  {
    if i < 0 then (Pass([], [], live), false)
    else
      var (v, live') := Call(react, arg, live, i);
      if v.ReturnedTrue() then (Pass([v], [], live'), true)
      else
        var (rest, handled) := ScanAny(react, arg, withContext, live', i - 1);
        (Prepend(v, withContext, rest), handled)
  }

  /** A whole plain dispatch, including the early return on an empty list. */
  function Dispatched<L, A>(react: (L, A) -> Reaction<L>, arg: A, withContext: bool, callbacks: seq<L>): Pass<L, A>
  {
    if |callbacks| == 0 then Pass([], [], callbacks)
    else Scan(react, arg, withContext, callbacks, |callbacks| - 1)
  }

  /** A whole short-circuiting dispatch; an empty list yields true. */
  function AnyDispatched<L, A>(react: (L, A) -> Reaction<L>, arg: A, withContext: bool, callbacks: seq<L>): (Pass<L, A>, bool)
  {
    if |callbacks| == 0 then (Pass([], [], callbacks), true)
    else ScanAny(react, arg, withContext, callbacks, |callbacks| - 1)
  }

  /** The visits and log made so far, followed by the pass still to come. */
  function Glue<L, A>(visits: seq<Visit<L, A>>, log: seq<LogEntry>, rest: Pass<L, A>): Pass<L, A> {
    Pass(visits + rest.visits, log + rest.log, rest.live)
  }

  lemma GluePrepend<L, A>(visits: seq<Visit<L, A>>, log: seq<LogEntry>, v: Visit<L, A>, withContext: bool, rest: Pass<L, A>)
    ensures Glue(visits, log, Prepend(v, withContext, rest)) == Glue(visits + [v], log + Report(v, withContext), rest)
  {
  }

  lemma ScanStep<L, A>(react: (L, A) -> Reaction<L>, arg: A, withContext: bool, live: seq<L>, i: nat, v: Visit<L, A>, live': seq<L>)
    requires (v, live') == Call(react, arg, live, i)
    ensures Scan(react, arg, withContext, live, i) == Prepend(v, withContext, Scan(react, arg, withContext, live', i - 1))
  {
  }

  lemma ScanAnyStep<L, A>(react: (L, A) -> Reaction<L>, arg: A, withContext: bool, live: seq<L>, i: nat, v: Visit<L, A>, live': seq<L>)
    requires (v, live') == Call(react, arg, live, i)
    ensures ScanAny(react, arg, withContext, live, i)
         == if v.ReturnedTrue() then (Pass([v], [], live'), true)
            else (Prepend(v, withContext, ScanAny(react, arg, withContext, live', i - 1).0),
                  ScanAny(react, arg, withContext, live', i - 1).1)
  {
  }

  /** The loop shared by the three `InvokeCallbacksSafe` overloads. */
  method InvokeSafe<L, A>(callbacks: seq<L>, react: (L, A) -> Reaction<L>, arg: A, withContext: bool)
    returns (p: Pass<L, A>)
    ensures p == Dispatched(react, arg, withContext, callbacks)
    ensures |p.visits| == |callbacks|
    ensures forall k :: 0 <= k < |p.visits| ==> p.visits[k].index == |callbacks| - 1 - k
    ensures forall k :: 0 <= k < |p.visits| && p.visits[k].Invoked? ==> p.visits[k].arg == arg
    ensures p.log == FaultLog(p.visits, withContext)
  {
    DispatchOrder(react, arg, withContext, callbacks);
    DispatchLogsEachFault(react, arg, withContext, callbacks);
    if |callbacks| == 0 {
      return Pass([], [], callbacks);
    }
    var copyLength := |callbacks|;
    var live := callbacks;
    var visits: seq<Visit<L, A>> := [];
    var log: seq<LogEntry> := [];
    var i := copyLength - 1;
    while i >= 0
      invariant -1 <= i < copyLength
      invariant Glue(visits, log, Scan(react, arg, withContext, live, i)) == Dispatched(react, arg, withContext, callbacks)
      decreases i + 1
    {
      ghost var live0 := live;
      var v: Visit<L, A>;
      if i < |live| {
        var r := react(live[i], arg);
        v := Invoked(i, live[i], arg, r.outcome);
        live := ApplyEdit(r.edit, live);
      } else {
        v := Missing(i);
      }
      ScanStep(react, arg, withContext, live0, i, v, live);
      GluePrepend(visits, log, v, withContext, Scan(react, arg, withContext, live, i - 1));
      visits := visits + [v];
      ghost var log0 := log;
      if v.Faulted() {
        // the catch block: one log entry per caught exception
        log := log + [LogEntry(i, withContext)];
      }
      assert log == log0 + Report(v, withContext);
      i := i - 1;
    }
    p := Pass(visits, log, live);
  }

  /** `InvokeCallbacksSafe` for callbacks without arguments. */
  method InvokeCallbacksSafe<L>(callbacks: seq<L>, react: (L, ()) -> Reaction<L>, withContext: bool)
    returns (p: Pass<L, ()>)
    ensures p == Dispatched(react, (), withContext, callbacks)
    ensures |callbacks| == 0 ==> p.visits == [] && p.log == []
    ensures |p.visits| == |callbacks|
    ensures forall k :: 0 <= k < |p.visits| ==> p.visits[k].index == |callbacks| - 1 - k
    ensures forall k :: 0 <= k < |p.visits| && p.visits[k].Invoked? ==> p.visits[k].arg == ()
    ensures p.log == FaultLog(p.visits, withContext)
  {
    p := InvokeSafe(callbacks, react, (), withContext);
  }

  /** `InvokeCallbacksSafe` for callbacks of one argument. */
  method InvokeCallbacksSafeWithArgument<L, T>(callbacks: seq<L>, react: (L, T) -> Reaction<L>, argument: T, withContext: bool)
    returns (p: Pass<L, T>)
    ensures p == Dispatched(react, argument, withContext, callbacks)
    ensures |p.visits| == |callbacks|
    ensures forall k :: 0 <= k < |p.visits| ==> p.visits[k].index == |callbacks| - 1 - k
    ensures forall k :: 0 <= k < |p.visits| && p.visits[k].Invoked? ==> p.visits[k].arg == argument
    ensures p.log == FaultLog(p.visits, withContext)
  {
    p := InvokeSafe(callbacks, react, argument, withContext);
  }

  /** `InvokeCallbacksSafe` for callbacks of two arguments. */
  method InvokeCallbacksSafeWithArguments<L, T1, T2>(callbacks: seq<L>, react: (L, (T1, T2)) -> Reaction<L>,
                                                     argument1: T1, argument2: T2, withContext: bool)
    returns (p: Pass<L, (T1, T2)>)
    ensures p == Dispatched(react, (argument1, argument2), withContext, callbacks)
    ensures |p.visits| == |callbacks|
    ensures forall k :: 0 <= k < |p.visits| ==> p.visits[k].index == |callbacks| - 1 - k
    ensures forall k :: 0 <= k < |p.visits| && p.visits[k].Invoked? ==> p.visits[k].arg == (argument1, argument2)
    ensures p.log == FaultLog(p.visits, withContext)
  {
    p := InvokeSafe(callbacks, react, (argument1, argument2), withContext);
  }

  /** `InvokeCallbacksSafe_AnyCallbackReturnsTrue`: stops at the first listener that
      returns true. The result is true for an empty list and, otherwise, exactly when
      some call returned true. */
  method InvokeCallbacksSafeAnyCallbackReturnsTrue<L, T1, T2>(callbacks: seq<L>, react: (L, (T1, T2)) -> Reaction<L>,
                                                              argument1: T1, argument2: T2, withContext: bool)
    returns (handled: bool, p: Pass<L, (T1, T2)>)
    ensures (p, handled) == AnyDispatched(react, (argument1, argument2), withContext, callbacks)
    ensures |callbacks| == 0 ==> handled && p.visits == [] && p.log == []
    ensures |callbacks| > 0 ==>
      (handled <==> exists k :: 0 <= k < |p.visits| && p.visits[k].ReturnedTrue())
    ensures |p.visits| <= |callbacks|
    ensures forall k :: 0 <= k < |p.visits| ==> p.visits[k].index == |callbacks| - 1 - k
    ensures forall k :: 0 <= k < |p.visits| - 1 ==> !p.visits[k].ReturnedTrue()
    ensures |callbacks| > 0 ==> (handled <==> p.visits[|p.visits| - 1].ReturnedTrue())
    ensures !handled ==> |p.visits| == |callbacks|
    ensures p.log == FaultLog(p.visits, withContext)
  {
    handled, p := InvokeAnySafe(callbacks, react, (argument1, argument2), withContext);
    if |callbacks| > 0 {
      AnyStopsAtFirstTrue(react, (argument1, argument2), withContext, callbacks);
      AnyLogsEachFault(react, (argument1, argument2), withContext, callbacks, |callbacks| - 1);
    }
  }

  /** The short-circuiting loop itself; the rule it implements is stated on
      `InvokeCallbacksSafeAnyCallbackReturnsTrue` and `AnyStopsAtFirstTrue`. */
  method InvokeAnySafe<L, A>(callbacks: seq<L>, react: (L, A) -> Reaction<L>, arg: A, withContext: bool)
    returns (handled: bool, p: Pass<L, A>)
    ensures (p, handled) == AnyDispatched(react, arg, withContext, callbacks)
  {
    if |callbacks| == 0 {
      return true, Pass([], [], callbacks);
    }
    var copyLength := |callbacks|;
    var live := callbacks;
    var visits: seq<Visit<L, A>> := [];
    var log: seq<LogEntry> := [];
    var i := copyLength - 1;
    ghost var whole := ScanAny(react, arg, withContext, live, i);
    assert Glue(visits, log, whole.0) == whole.0;
    while i >= 0
      invariant -1 <= i < copyLength
      invariant (Glue(visits, log, ScanAny(react, arg, withContext, live, i).0), ScanAny(react, arg, withContext, live, i).1)
             == AnyDispatched(react, arg, withContext, callbacks)
      decreases i + 1
    {
      ghost var live0 := live;
      var v: Visit<L, A>;
      if i < |live| {
        var r := react(live[i], arg);
        v := Invoked(i, live[i], arg, r.outcome);
        live := ApplyEdit(r.edit, live);
      } else {
        v := Missing(i);
      }
      ScanAnyStep(react, arg, withContext, live0, i, v, live);
      if v.ReturnedTrue() {
        assert log + [] == log;
        assert Glue(visits, log, Pass([v], [], live)) == Pass(visits + [v], log, live);
        return true, Pass(visits + [v], log, live);
      }
      GluePrepend(visits, log, v, withContext, ScanAny(react, arg, withContext, live, i - 1).0);
      visits := visits + [v];
      ghost var log0 := log;
      if v.Faulted() {
        // the catch block: one log entry per caught exception
        log := log + [LogEntry(i, withContext)];
      }
      assert log == log0 + Report(v, withContext);
      i := i - 1;
    }
    assert visits + [] == visits && log + [] == log;
    assert Glue(visits, log, Pass([], [], live)) == Pass(visits, log, live);
    return false, Pass(visits, log, live);
  }

  // ---------------------------------------------------------------------------
  // Properties of the plain dispatch
  // ---------------------------------------------------------------------------

  lemma {:induction false} ScanOrder<L, A>(react: (L, A) -> Reaction<L>, arg: A, withContext: bool, live: seq<L>, i: int)
    requires -1 <= i
    ensures |Scan(react, arg, withContext, live, i).visits| == i + 1
    ensures forall k :: 0 <= k < i + 1 ==> Scan(react, arg, withContext, live, i).visits[k].index == i - k
    ensures forall k :: 0 <= k < i + 1 && Scan(react, arg, withContext, live, i).visits[k].Invoked? ==>
      Scan(react, arg, withContext, live, i).visits[k].arg == arg
    decreases i + 1
  {
    if i >= 0 {
      var (v, live') := Call(react, arg, live, i);
      var rest := Scan(react, arg, withContext, live', i - 1);
      ScanOrder(react, arg, withContext, live', i - 1);
      assert forall k :: 1 <= k < i + 1 ==> Scan(react, arg, withContext, live, i).visits[k] == rest.visits[k - 1];
    }
  }

  /** Bounded, descending iteration: the pass makes exactly as many visits as the list
      held at entry, the last-registered index first and index 0 last, whatever the
      listeners do to the live list and whether or not they throw. */
  lemma DispatchOrder<L, A>(react: (L, A) -> Reaction<L>, arg: A, withContext: bool, callbacks: seq<L>)
    ensures |Dispatched(react, arg, withContext, callbacks).visits| == |callbacks|
    ensures forall k :: 0 <= k < |callbacks| ==>
      Dispatched(react, arg, withContext, callbacks).visits[k].index == |callbacks| - 1 - k
    ensures forall k :: 0 <= k < |callbacks| && Dispatched(react, arg, withContext, callbacks).visits[k].Invoked? ==>
      Dispatched(react, arg, withContext, callbacks).visits[k].arg == arg
  {
    if |callbacks| > 0 {
      ScanOrder(react, arg, withContext, callbacks, |callbacks| - 1);
    }
  }

  lemma {:induction false} ScanLog<L, A>(react: (L, A) -> Reaction<L>, arg: A, withContext: bool, live: seq<L>, i: int)
    requires -1 <= i
    ensures Scan(react, arg, withContext, live, i).log == FaultLog(Scan(react, arg, withContext, live, i).visits, withContext)
    decreases i + 1
  {
    if i >= 0 {
      var (v, live') := Call(react, arg, live, i);
      var rest := Scan(react, arg, withContext, live', i - 1);
      ScanLog(react, arg, withContext, live', i - 1);
      assert ([v] + rest.visits)[1..] == rest.visits;
    }
  }

  /** Exception isolation: the log holds one entry per faulted call, in call order,
      and none for calls that completed. */
  lemma DispatchLogsEachFault<L, A>(react: (L, A) -> Reaction<L>, arg: A, withContext: bool, callbacks: seq<L>)
    ensures Dispatched(react, arg, withContext, callbacks).log
         == FaultLog(Dispatched(react, arg, withContext, callbacks).visits, withContext)
  {
    if |callbacks| > 0 {
      ScanLog(react, arg, withContext, callbacks, |callbacks| - 1);
    }
  }

  /** The empty log characterisation: no entry at all exactly when no call faulted. */
  lemma {:induction false} FaultLogEmpty<L, A>(visits: seq<Visit<L, A>>, withContext: bool)
    ensures FaultLog(visits, withContext) == [] <==> forall k :: 0 <= k < |visits| ==> !visits[k].Faulted()
  {
    if visits != [] {
      FaultLogEmpty(visits[1..], withContext);
      assert forall k :: 1 <= k < |visits| ==> visits[k] == visits[1..][k - 1];
    }
  }

  ghost predicate AppendOnly<L(!new)>(edit: Edit<L>) {
    edit.Change? ==> forall s :: s <= edit.apply(s)
  }

  /** The listeners in `callbacks` at most append to the live list. */
  ghost predicate OnlyAppends<L(!new), A>(react: (L, A) -> Reaction<L>, arg: A, callbacks: seq<L>) {
    forall j :: 0 <= j < |callbacks| ==> AppendOnly(react(callbacks[j], arg).edit)
  }

  /** The listeners in `callbacks` leave the live list alone. */
  predicate NoEdits<L, A>(react: (L, A) -> Reaction<L>, arg: A, callbacks: seq<L>) {
    forall j :: 0 <= j < |callbacks| ==> react(callbacks[j], arg).edit.Keep?
  }

  /** The visits call `callbacks[i]`, `callbacks[i - 1]`, ..., `callbacks[0]` in turn,
      each once and with the dispatch argument, and nothing else. */
  ghost predicate CallsDownFrom<L, A>(visits: seq<Visit<L, A>>, react: (L, A) -> Reaction<L>, arg: A, callbacks: seq<L>, i: int)
    requires i < |callbacks|
  {
    && |visits| == i + 1
    && forall k :: 0 <= k <= i ==>
         visits[k] == Invoked(i - k, callbacks[i - k], arg, react(callbacks[i - k], arg).outcome)
  }

  /** Every listener of `callbacks` is called exactly once, from the last to the first. */
  ghost predicate CallsEachInTurn<L, A>(visits: seq<Visit<L, A>>, react: (L, A) -> Reaction<L>, arg: A, callbacks: seq<L>) {
    CallsDownFrom(visits, react, arg, callbacks, |callbacks| - 1)
  }

  lemma PrependCallsDownFrom<L, A>(v: Visit<L, A>, withContext: bool, rest: Pass<L, A>,
                                   react: (L, A) -> Reaction<L>, arg: A, callbacks: seq<L>, i: nat)
    requires i < |callbacks|
    requires CallsDownFrom(rest.visits, react, arg, callbacks, i - 1)
    requires v == Invoked(i, callbacks[i], arg, react(callbacks[i], arg).outcome)
    ensures CallsDownFrom(Prepend(v, withContext, rest).visits, react, arg, callbacks, i)
  {
  }

  lemma {:induction false} ScanAppendOnly<L(!new), A>(react: (L, A) -> Reaction<L>, arg: A, withContext: bool,
                                                      callbacks: seq<L>, live: seq<L>, i: int)
    requires -1 <= i < |callbacks|
    requires callbacks <= live
    requires OnlyAppends(react, arg, callbacks)
    ensures CallsDownFrom(Scan(react, arg, withContext, live, i).visits, react, arg, callbacks, i)
    ensures callbacks <= Scan(react, arg, withContext, live, i).live
    ensures NoEdits(react, arg, callbacks) ==> Scan(react, arg, withContext, live, i).live == live
    decreases i + 1
  {
    if i >= 0 {
      assert live[i] == callbacks[i];
      var (v, live') := Call(react, arg, live, i);
      assert AppendOnly(react(callbacks[i], arg).edit);
      assert live <= live';
      ScanAppendOnly(react, arg, withContext, callbacks, live', i - 1);
      ScanStep(react, arg, withContext, live, i, v, live');
      PrependCallsDownFrom(v, withContext, Scan(react, arg, withContext, live', i - 1), react, arg, callbacks, i);
    }
  }

  /** Listeners appended during a pass are never reached by it: when the listeners
      only append, the pass calls exactly the listeners present at entry, each once,
      from the last to the first, and the entry list survives as a prefix. */
  lemma AppendedListenersNeverReached<L(!new), A>(react: (L, A) -> Reaction<L>, arg: A, withContext: bool, callbacks: seq<L>)
    requires OnlyAppends(react, arg, callbacks)
    ensures CallsEachInTurn(Dispatched(react, arg, withContext, callbacks).visits, react, arg, callbacks)
    ensures callbacks <= Dispatched(react, arg, withContext, callbacks).live
  {
    if |callbacks| > 0 {
      ScanAppendOnly(react, arg, withContext, callbacks, callbacks, |callbacks| - 1);
    }
  }

  lemma NoEditsOnlyAppends<L(!new), A>(react: (L, A) -> Reaction<L>, arg: A, callbacks: seq<L>)
    requires NoEdits(react, arg, callbacks)
    ensures OnlyAppends(react, arg, callbacks)
  {
  }

  /** With an unmutated list every listener is called exactly once with the dispatch
      argument, the list is left as it was, and the log stays empty exactly when no
      listener throws. */
  lemma UnmutatedDispatchInvokesEachOnce<L(!new), A>(react: (L, A) -> Reaction<L>, arg: A, withContext: bool, callbacks: seq<L>)
    requires NoEdits(react, arg, callbacks)
    ensures CallsEachInTurn(Dispatched(react, arg, withContext, callbacks).visits, react, arg, callbacks)
    ensures Dispatched(react, arg, withContext, callbacks).live == callbacks
    ensures Dispatched(react, arg, withContext, callbacks).log == [] <==>
      forall j :: 0 <= j < |callbacks| ==> !react(callbacks[j], arg).outcome.Throws?
  {
    NoEditsOnlyAppends(react, arg, callbacks);
    AppendedListenersNeverReached(react, arg, withContext, callbacks);
    if |callbacks| > 0 {
      ScanAppendOnly(react, arg, withContext, callbacks, callbacks, |callbacks| - 1);
    }
    var p := Dispatched(react, arg, withContext, callbacks);
    DispatchLogsEachFault(react, arg, withContext, callbacks);
    EachInTurnLogsThrows(p.visits, withContext, react, arg, callbacks);
  }

  /** When every listener is called once, in turn, the log is empty exactly when
      none of them throws. */
  lemma EachInTurnLogsThrows<L, A>(visits: seq<Visit<L, A>>, withContext: bool,
                                   react: (L, A) -> Reaction<L>, arg: A, callbacks: seq<L>)
    requires CallsEachInTurn(visits, react, arg, callbacks)
    ensures FaultLog(visits, withContext) == [] <==>
      forall j :: 0 <= j < |callbacks| ==> !react(callbacks[j], arg).outcome.Throws?
  {
    var n := |callbacks|;
    FaultLogEmpty(visits, withContext);
    if FaultLog(visits, withContext) == [] {
      forall j | 0 <= j < n ensures !react(callbacks[j], arg).outcome.Throws? {
        assert !visits[n - 1 - j].Faulted();
      }
    } else {
      var k :| 0 <= k < |visits| && visits[k].Faulted();
      assert react(callbacks[n - 1 - k], arg).outcome.Throws?;
    }
  }

  /** The edit, made by the listener called at index `j`, leaves the first `j` entries
      of the live list (the ones the pass has still to visit) as they were, on every
      live list whose first `j` entries are still those of `entry`. Removing the
      listener itself (by position, or by value when it is not among those first
      entries), removing or replacing an entry above `j`, and appending are all such
      edits. */
  ghost predicate LeavesUnvisitedAlone<L(!new)>(edit: Edit<L>, j: nat, entry: seq<L>)
    requires j <= |entry|
  {
    edit.Change? ==>
      forall s :: j <= |s| && s[..j] == entry[..j] ==> j <= |edit.apply(s)| && edit.apply(s)[..j] == s[..j]
  }

  /** Every listener of `callbacks` leaves the entries below its own index alone. */
  ghost predicate SparesUnvisited<L(!new), A>(react: (L, A) -> Reaction<L>, arg: A, callbacks: seq<L>) {
    forall j :: 0 <= j < |callbacks| ==> LeavesUnvisitedAlone(react(callbacks[j], arg).edit, j, callbacks)
  }

  /** One step of a pass that spares the unvisited entries: the call at `i` finds the
      entry listener there and leaves the entries below `i` as they were at entry. */
  lemma CallSparesUnvisited<L(!new), A>(react: (L, A) -> Reaction<L>, arg: A, callbacks: seq<L>, live: seq<L>, i: nat)
    requires i < |callbacks| && i < |live| && live[..i + 1] == callbacks[..i + 1]
    requires SparesUnvisited(react, arg, callbacks)
    ensures Call(react, arg, live, i).0 == Invoked(i, callbacks[i], arg, react(callbacks[i], arg).outcome)
    ensures i <= |Call(react, arg, live, i).1| && Call(react, arg, live, i).1[..i] == callbacks[..i]
  {
    assert live[i] == live[..i + 1][i] == callbacks[..i + 1][i] == callbacks[i];
    assert LeavesUnvisitedAlone(react(callbacks[i], arg).edit, i, callbacks);
    assert live[..i] == live[..i + 1][..i];
    assert callbacks[..i] == callbacks[..i + 1][..i];
  }

  lemma {:induction false} ScanSparesUnvisited<L(!new), A>(react: (L, A) -> Reaction<L>, arg: A, withContext: bool,
                                                          callbacks: seq<L>, live: seq<L>, i: int)
    requires -1 <= i < |callbacks|
    requires i < |live| && live[..i + 1] == callbacks[..i + 1]
    requires SparesUnvisited(react, arg, callbacks)
    ensures CallsDownFrom(Scan(react, arg, withContext, live, i).visits, react, arg, callbacks, i)
    decreases i + 1
  {
    if i >= 0 {
      var (v, live') := Call(react, arg, live, i);
      CallSparesUnvisited(react, arg, callbacks, live, i);
      assert live'[..i] == callbacks[..i];
      ScanSparesUnvisited(react, arg, withContext, callbacks, live', i - 1);
      ScanStep(react, arg, withContext, live, i, v, live');
      PrependCallsDownFrom(v, withContext, Scan(react, arg, withContext, live', i - 1), react, arg, callbacks, i);
    }
  }

  /** Protection against a listener being removed while it is called: because the scan
      goes downwards, an edit that leaves the not yet visited entries alone (a
      listener removing itself, by position or by value, removing an entry already
      visited, or appending) does not disturb the pass, and every listener present
      at entry still runs exactly once, from the last to the first. */
  lemma RemovingVisitedListenersIsSafe<L(!new), A>(react: (L, A) -> Reaction<L>, arg: A, withContext: bool, callbacks: seq<L>)
    requires SparesUnvisited(react, arg, callbacks)
    ensures CallsEachInTurn(Dispatched(react, arg, withContext, callbacks).visits, react, arg, callbacks)
  {
    if |callbacks| > 0 {
      ScanSparesUnvisited(react, arg, withContext, callbacks, callbacks, |callbacks| - 1);
    }
  }

  /** Each listener of `[0, 1, 2]` removing itself while it runs: every listener still
      runs exactly once, from the last to the first, and the list ends up empty. */
  lemma SelfRemovalCallsEachOnce()
    ensures var react := (l: nat, u: ()) =>
              Reaction(Ok, Change((s: seq<nat>) => if l < |s| then s[..l] + s[l + 1..] else s));
            var p := Dispatched(react, (), false, [0, 1, 2]);
            && p.visits == [Invoked(2, 2, (), Ok), Invoked(1, 1, (), Ok), Invoked(0, 0, (), Ok)]
            && p.live == []
  {
  }

  /** Removing the first entry equal to `l`, the usual way a listener unsubscribes. */
  function RemoveFirst<L(==)>(s: seq<L>, l: L): (r: seq<L>)
    ensures l !in s ==> r == s
    ensures l in s ==> |r| == |s| - 1
  {
    if s == [] then []
    else if s[0] == l then s[1..]
    else [s[0]] + RemoveFirst(s[1..], l)
  }

  /** Removing `l` by value leaves alone every entry before its first occurrence. */
  lemma {:induction false} RemoveFirstKeepsPrefix<L>(s: seq<L>, l: L, j: nat)
    requires j <= |s| && l !in s[..j]
    ensures j <= |RemoveFirst(s, l)| && RemoveFirst(s, l)[..j] == s[..j]
  {
    if j > 0 {
      assert s[0] == s[..j][0];
      assert s[1..][..j - 1] == s[1..j] == s[..j][1..];
      RemoveFirstKeepsPrefix(s[1..], l, j - 1);
      assert RemoveFirst(s, l) == [s[0]] + RemoveFirst(s[1..], l);
    }
  }

  /** The edit of a listener `l` unsubscribing itself by value. */
  function Unsubscribe<L(==, !new)>(l: L): (e: Edit<L>)
    ensures e.Change? && forall s :: e.apply(s) == RemoveFirst(s, l)
  {
    Change((s: seq<L>) => RemoveFirst(s, l))
  }

  /** Listeners that, whatever their outcome, unsubscribe themselves by value. */
  function Unsubscribing<L(==, !new), A(!new)>(outcome: L -> Outcome): (react: (L, A) -> Reaction<L>)
    ensures forall l, a :: react(l, a) == Reaction(outcome(l), Unsubscribe(l))
  {
    (l: L, a: A) => Reaction(outcome(l), Unsubscribe(l))
  }

  /** Self-unsubscription during a pass is safe: when distinct listeners each remove
      themselves by value while they run, every listener present at entry is still
      called exactly once, from the last to the first. */
  lemma SelfUnsubscribeCallsEachOnce<L(!new), A(!new)>(outcome: L -> Outcome, arg: A, withContext: bool, callbacks: seq<L>)
    requires forall a, b :: 0 <= a < b < |callbacks| ==> callbacks[a] != callbacks[b]
    ensures CallsEachInTurn(Dispatched(Unsubscribing(outcome), arg, withContext, callbacks).visits,
                            Unsubscribing(outcome), arg, callbacks)
  {
    var react := Unsubscribing<L, A>(outcome);
    forall j | 0 <= j < |callbacks| ensures LeavesUnvisitedAlone(react(callbacks[j], arg).edit, j, callbacks) {
      forall s | j <= |s| && s[..j] == callbacks[..j]
        ensures j <= |RemoveFirst(s, callbacks[j])| && RemoveFirst(s, callbacks[j])[..j] == s[..j]
      {
        assert callbacks[j] !in s[..j] by {
          forall a | 0 <= a < j ensures s[..j][a] != callbacks[j] {
            assert s[..j][a] == callbacks[..j][a] == callbacks[a];
          }
        }
        RemoveFirstKeepsPrefix(s, callbacks[j], j);
      }
    }
    RemovingVisitedListenersIsSafe(react, arg, withContext, callbacks);
  }

  function AlwaysOk(l: nat): Outcome {
    Ok
  }

  lemma RemoveFirstOfThree()
    ensures RemoveFirst([0, 1, 2], 2) == [0, 1]
    ensures RemoveFirst([0, 1], 1) == [0]
    ensures RemoveFirst([0], 0) == []
  {
    assert [0, 1, 2][1..] == [1, 2] && [1, 2][1..] == [2] && [0, 1][1..] == [1];
  }

  /** Each listener of `[0, 1, 2]` unsubscribing itself by value: listeners 2, 1 and 0
      each run once, in that order, and the list ends up empty. */
  lemma SelfUnsubscribeEmptiesList()
    ensures var p := Dispatched(Unsubscribing<nat, ()>(AlwaysOk), (), false, [0, 1, 2]);
            && p.visits == [Invoked(2, 2, (), Ok), Invoked(1, 1, (), Ok), Invoked(0, 0, (), Ok)]
            && p.live == []
  {
    var react := Unsubscribing<nat, ()>(AlwaysOk);
    RemoveFirstOfThree();
    assert Call(react, (), [0, 1, 2], 2) == (Invoked(2, 2, (), Ok), [0, 1]);
    assert Call(react, (), [0, 1], 1) == (Invoked(1, 1, (), Ok), [0]);
    assert Call(react, (), [0], 0) == (Invoked(0, 0, (), Ok), []);
    assert Scan(react, (), false, [0], 0) == Pass([Invoked(0, 0, (), Ok)], [], []);
    assert Scan(react, (), false, [0, 1], 1) == Pass([Invoked(1, 1, (), Ok), Invoked(0, 0, (), Ok)], [], []);
  }

  /** The clone fixes only the number of iterations, not the listeners called: a
      listener that removes the first entry of `[0, 1, 2]` while it runs shifts the
      rest down, so it is found again at every lower index and runs three times,
      while listeners 0 and 1 never run. */
  lemma LiveIndexingCanRepeatListener()
    ensures var react := (l: nat, u: ()) =>
              if l == 2 then Reaction(Ok, Change((s: seq<nat>) => if |s| > 0 then s[1..] else s))
              else Reaction(Ok, Keep);
            Dispatched(react, (), false, [0, 1, 2]).visits
              == [Invoked(2, 2, (), Ok), Invoked(1, 2, (), Ok), Invoked(0, 2, (), Ok)]
  {
  }

  /** A listener that clears the list leaves the remaining indices out of range: each
      is caught and logged like a thrown exception. */
  lemma ClearedListIsLoggedPerIndex()
    ensures var react := (l: nat, u: ()) => Reaction(Ok, Change((s: seq<nat>) => []));
            var p := Dispatched(react, (), true, [0, 1, 2]);
            && p.visits == [Invoked(2, 2, (), Ok), Missing(1), Missing(0)]
            && p.log == [LogEntry(1, true), LogEntry(0, true)]
  {
  }

  /** The visit a call at index `i` makes on a list that no longer changes: the listener
      now at `i`, or a caught failure when the list has no index `i`. */
  function VisitAt<L, A>(react: (L, A) -> Reaction<L>, arg: A, live: seq<L>, i: nat): Visit<L, A> {
    if i < |live| then Invoked(i, live[i], arg, react(live[i], arg).outcome) else Missing(i)
  }

  /** Once the live list stops changing, visit `k` of a scan from index `i` reads
      index `i - k` of that list, whatever the list the dispatch started from. */
  lemma {:induction false} ScanOverFixed<L, A>(react: (L, A) -> Reaction<L>, arg: A, withContext: bool, live: seq<L>, i: int)
    requires -1 <= i
    requires NoEdits(react, arg, live)
    ensures |Scan(react, arg, withContext, live, i).visits| == i + 1
    ensures forall k :: 0 <= k <= i ==> Scan(react, arg, withContext, live, i).visits[k] == VisitAt(react, arg, live, i - k)
    ensures Scan(react, arg, withContext, live, i).live == live
    decreases i + 1
  {
    if i >= 0 {
      var (v, live') := Call(react, arg, live, i);
      assert i < |live| ==> react(live[i], arg).edit.Keep?;
      assert live' == live && v == VisitAt(react, arg, live, i);
      ScanOverFixed(react, arg, withContext, live, i - 1);
      ScanStep(react, arg, withContext, live, i, v, live');
    }
  }

  /** Live indexing in general: the clone taken at entry fixes only the number of
      iterations. After the first (last-registered) listener edits the list, every
      later visit calls whatever listener the EDITED list holds at its index, or is a
      caught failure when the edited list is too short; nothing is read from the list
      as it was at entry. */
  lemma LaterVisitsReadEditedList<L, A>(react: (L, A) -> Reaction<L>, arg: A, withContext: bool, callbacks: seq<L>)
    requires |callbacks| > 0
    requires NoEdits(react, arg, ApplyEdit(react(callbacks[|callbacks| - 1], arg).edit, callbacks))
    ensures var n := |callbacks|;
            var edited := ApplyEdit(react(callbacks[n - 1], arg).edit, callbacks);
            var p := Dispatched(react, arg, withContext, callbacks);
            && |p.visits| == n
            && p.visits[0] == Invoked(n - 1, callbacks[n - 1], arg, react(callbacks[n - 1], arg).outcome)
            && (forall k :: 1 <= k < n ==> p.visits[k] == VisitAt(react, arg, edited, n - 1 - k))
            && p.live == edited
  {
    var n := |callbacks|;
    var (v, edited) := Call(react, arg, callbacks, n - 1);
    ScanStep(react, arg, withContext, callbacks, n - 1, v, edited);
    ScanOverFixed(react, arg, withContext, edited, n - 2);
    var p := Dispatched(react, arg, withContext, callbacks);
    var rest := Scan(react, arg, withContext, edited, n - 2);
    assert forall k :: 1 <= k < n ==> p.visits[k] == rest.visits[k - 1];
  }

  // ---------------------------------------------------------------------------
  // Properties of the short-circuiting dispatch
  // ---------------------------------------------------------------------------

  /** The shape of a short-circuiting pass that started at index `i`. */
  ghost predicate AnyShape<L, A>(p: Pass<L, A>, handled: bool, i: int) {
    && (if handled then 0 < |p.visits| <= i + 1 else |p.visits| == i + 1)
    && (forall k :: 0 <= k < |p.visits| ==> p.visits[k].index == i - k)
    && (forall k :: 0 <= k < |p.visits| - 1 ==> !p.visits[k].ReturnedTrue())
    && (handled <==> |p.visits| > 0 && p.visits[|p.visits| - 1].ReturnedTrue())
  }

  lemma PrependShape<L, A>(v: Visit<L, A>, withContext: bool, rest: Pass<L, A>, handled: bool, i: nat)
    requires AnyShape(rest, handled, i - 1)
    requires v.index == i && !v.ReturnedTrue()
    ensures AnyShape(Prepend(v, withContext, rest), handled, i)
  {
  }

  lemma {:induction false} ScanAnyShape<L, A>(react: (L, A) -> Reaction<L>, arg: A, withContext: bool, live: seq<L>, i: int)
    requires -1 <= i
    ensures AnyShape(ScanAny(react, arg, withContext, live, i).0, ScanAny(react, arg, withContext, live, i).1, i)
    decreases i + 1
  {
    if i >= 0 {
      var (v, live') := Call(react, arg, live, i);
      if !v.ReturnedTrue() {
        ScanAnyShape(react, arg, withContext, live', i - 1);
        var rest := ScanAny(react, arg, withContext, live', i - 1);
        PrependShape(v, withContext, rest.0, rest.1, i);
      }
    }
  }

  /** The short-circuit rule: on a non-empty list the visits go down from the last
      index, no visit but possibly the final one returns true, the result is true
      exactly when the final visit returned true, and a false result means every index
      was visited. Throwing listeners count as not true. */
  lemma AnyStopsAtFirstTrue<L, A>(react: (L, A) -> Reaction<L>, arg: A, withContext: bool, callbacks: seq<L>)
    requires |callbacks| > 0
    ensures var (p, handled) := AnyDispatched(react, arg, withContext, callbacks);
      && 0 < |p.visits| <= |callbacks|
      && (forall k :: 0 <= k < |p.visits| ==> p.visits[k].index == |callbacks| - 1 - k)
      && (forall k :: 0 <= k < |p.visits| - 1 ==> !p.visits[k].ReturnedTrue())
      && (handled <==> p.visits[|p.visits| - 1].ReturnedTrue())
      && (handled <==> exists k :: 0 <= k < |p.visits| && p.visits[k].ReturnedTrue())
      && (!handled ==> |p.visits| == |callbacks|)
  {
    ScanAnyShape(react, arg, withContext, callbacks, |callbacks| - 1);
    var (p, handled) := AnyDispatched(react, arg, withContext, callbacks);
    if exists k :: 0 <= k < |p.visits| && p.visits[k].ReturnedTrue() {
      var k :| 0 <= k < |p.visits| && p.visits[k].ReturnedTrue();
      assert k == |p.visits| - 1;
    }
  }

  /** An empty list is reported as handled without calling or logging anything. */
  lemma AnyEmptyReturnsTrue<L, A>(react: (L, A) -> Reaction<L>, arg: A, withContext: bool, callbacks: seq<L>)
    requires callbacks == []
    ensures AnyDispatched(react, arg, withContext, callbacks) == (Pass([], [], []), true)
  {
  }

  lemma {:induction false} AnyLogsEachFault<L, A>(react: (L, A) -> Reaction<L>, arg: A, withContext: bool, live: seq<L>, i: int)
    requires -1 <= i
    ensures ScanAny(react, arg, withContext, live, i).0.log
         == FaultLog(ScanAny(react, arg, withContext, live, i).0.visits, withContext)
    decreases i + 1
  {
    if i >= 0 {
      var (v, live') := Call(react, arg, live, i);
      if !v.ReturnedTrue() {
        var rest := ScanAny(react, arg, withContext, live', i - 1).0;
        AnyLogsEachFault(react, arg, withContext, live', i - 1);
        assert ([v] + rest.visits)[1..] == rest.visits;
      } else {
        assert [v][1..] == [];
      }
    }
  }

  lemma {:induction false} ScanAnyIsPrefixOfScan<L, A>(react: (L, A) -> Reaction<L>, arg: A, withContext: bool, live: seq<L>, i: int)
    requires -1 <= i
    ensures var (p, handled) := ScanAny(react, arg, withContext, live, i);
            var q := Scan(react, arg, withContext, live, i);
      && p.visits <= q.visits
      && p.log <= q.log
      && (!handled ==> p == q)
    decreases i + 1
  {
    if i >= 0 {
      var (v, live') := Call(react, arg, live, i);
      ScanAnyIsPrefixOfScan(react, arg, withContext, live', i - 1);
    }
  }

  /** The short-circuiting pass makes the same calls and writes the same log as the
      plain pass, up to where it stops; when it returns false it is the plain pass. */
  lemma AnyIsPrefixOfDispatch<L, A>(react: (L, A) -> Reaction<L>, arg: A, withContext: bool, callbacks: seq<L>)
    ensures var (p, handled) := AnyDispatched(react, arg, withContext, callbacks);
            var q := Dispatched(react, arg, withContext, callbacks);
      && p.visits <= q.visits
      && p.log <= q.log
      && (!handled ==> p == q)
  {
    if |callbacks| > 0 {
      ScanAnyIsPrefixOfScan(react, arg, withContext, callbacks, |callbacks| - 1);
    }
  }
}
